=== FILE: README.md ===
# Grumpy Tracker flex core in Dafny

Grumpy Tracker is a time-tracking web application. Users record working days, breaks, travel, extra time, absences and uses of flex time. The application reports the flex balance, meaning the minutes worked above or below a nominal working time. This project models the part of the application that computes or builds something. Each piece is a pure function or method over immutable data:

- **The flex summary** (`GET /time/summary`):
  - It chooses a reporting window: a day, a week starting on Sunday, or a calendar month.
  - It reads the user's time entries in that window in ascending date order.
  - For each entry it measures work, travel, break, extra and flex minutes, where flex is `work - breaks + extra - normal`.
  - It groups the measures into one row per day and keeps a running total of flex.
- **The nominal work time of a day** (`getWorkTimeForDate`):
  - With no settings it is 480.
  - Otherwise it is the user's `normal_work_time`, with 0 read as 480.
  - A work period that covers the date overrides it. Among covering periods, the one that starts latest wins.
- **The record builders** for absences, flex-leave days and flex uses:
  - They check the required fields.
  - They coerce the `full_day` flag.
  - They null the start and end times of full days.
  - They pass numeric fields through JavaScript's `parseInt`.
- **The settings row**:
  - `GET /settings` gets the row, or creates it with the defaults 480 and 435.
  - `POST /settings` upserts it.

The model uses these representations:

- Times are integer minutes since midnight.
- Dates are day ordinals, with 0 = 1970-01-01. The base date of the report is a valid Gregorian calendar date.
- The database is a sequence of entries or periods, or, for settings, a map from user to row.
- A request body field is `Missing`, a `Text` (every urlencoded field) or a JSON `Flag`.
- An outcome is a redirect to the login page, a rejection with its reason, or the created record.

The files:

| file | module | contents |
|---|---|---|
| common.dfy | Common | `Option`, user ids, outcomes of the create handlers |
| calendar.dfy | Calendar | leap years, month lengths, day ordinals, weekday (0 = Sunday, as `Date.getDay`) |
| number_parsing.dfy | NumberParsing | `parseInt(s)` without radix, and its round trip with `String(n)` |
| form_fields.dfy | FormFields | request-body values, truthiness, the nullable-Int coercion, the full-day rule |
| absences.dfy | Absences | `POST /absence/new` |
| flex_leave.dfy | FlexLeave | `POST /absence/flex-leave` |
| flex_usage.dfy | FlexUsage | `POST /flexusage/new` |
| user_settings.dfy | UserSettings | `GET /settings` and `POST /settings` |
| work_time.dfy | WorkTime | `getWorkTimeForDate` |
| time_summary.dfy | TimeSummary | `GET /time/summary`: window, query, per-entry measures, grouping by day |

Notes on what the code does:

- **The winning work period.** The comment at `src/utils.js:23` says the most recent matching period is used. The query at `src/utils.js:24` orders by `start` descending, so the period with the latest start wins, whenever it was created. The database leaves periods with equal starts in no fixed order. The model takes the first one in store order.
- **An empty user id.** `if (!userId) return normal;` also fires for the empty string, which is falsy. For that id the periods are never consulted.
- **Break minutes.** A break contributes `end - start` whenever both bounds are set. The code does not clamp this at 0.
- **Which entries count.** The report adds up every entry in the window. No entry is filtered out as invalid.
- **The report's nominal time.**
  - It is the settings row's `normal_work_time`, without the resolver's `|| 480` fallback, so a stored 0 owes 0 minutes a day. With no row it is 480.
  - Work periods play no part in it.
- **Unset times.** The model reads every time as integer minutes, for the `a && b` tests on travel and break bounds and for the units alike. It drops the `/ 60000`. A bound of 0 (midnight) therefore counts as unset. For rows whose times are `Date` objects, as `POST /time/new` stores them, a midnight bound would count as set, because every `Date` is truthy.
- **The base instant of the report.**
  - With a `date` parameter, the base is whatever `new Date(date)` makes of it. A date-only string such as `2024-01-15` is read as midnight. A string with a time of day such as `2024-01-15T13:00` keeps that time, which shifts the day and week windows just as the clock does below. An unparseable string gives an Invalid Date, and the handler throws without rendering a page: at the latest when it formats the base date with `toISOString`. The model takes the parsed day and minute, or `InvalidDate`, and gives `Failed` for the latter.
  - Without one, `new Date()` is the current instant, and the day and week windows keep its time of day. An entry's date is the midnight that starts its day. So once the clock is past midnight:
    - the default day window holds tomorrow's entries, not today's;
    - the default week window drops its Sunday and takes in the next Sunday.
  - The model computes windows over instants in minutes to show this.
- **The month window of a two-digit year.** The month bounds come from `new Date(year, month, 1)`, which reads the years 0 through 99 as 1900 through 1999. So `period=month&date=0050-03-15` gives the window for March 1950, which does not contain the base date. The model applies the same year rule (`Calendar.ConstructorYear`). The day and week windows copy the base `Date` and are not affected.
- **A period value other than day, week or month.** The window bounds stay `undefined`, and the query then drops its date filter. The model returns every entry of the user (`Window.Everything`).

The persistence layer is assumed to refuse two kinds of value:

- `NaN` for an Int column;
- a JSON boolean for a String or DateTime column (the date, the absence type, the comments).

In either case the create or upsert throws and nothing is stored, and the handler's `catch` renders the form with the error. The model states this as `Rejected(NotAnInteger)` or `Rejected(NotAString)`. For settings, it is an unchanged store with a `Failed` notice.

## Model

| member | source | states |
|---|---|---|
| TimeSummary.Measure | src/routes/time.js:83-90 | flex is work minus breaks plus extra minus the nominal time; work is end minus start; travel is nonzero only when both travel bounds are set; the extra column is the stored extra time, or 0 when there is none; without break ends there are no break minutes |
| TimeSummary.BreakPair | src/routes/time.js:85-88 | break i adds its end minus its start when both are set, and adds nothing otherwise |
| TimeSummary.BreakSum | src/routes/time.js:85-88 | with no break ends the break total is 0; it is never negative when every matched break ends no earlier than it starts |
| TimeSummary.FlexOfEntry | src/routes/time.js:83-90 | when no break bound is 0, an entry's break minutes are the sum of the matched break ends minus the sum of the matched break starts, and its flex is its worked span minus (the sum of the matched break ends minus the sum of the matched break starts) plus its extra time (0 when absent) minus the nominal time |
| TimeSummary.FlexExamples | src/routes/time.js:83-90 | 08:00-16:15 against 480 nominal minutes gives 15 flex; a 30-minute break gives -15; 30 extra minutes give 45; travel times and an unmatched break start leave it at 15 |
| TimeSummary.UnmatchedBreaksAddNothing | src/routes/time.js:85-88 | break starts beyond the last break end add nothing to the break total |
| TimeSummary.BreakSumOfMatchedPairs | src/routes/time.js:85-88 | over break pairs with both bounds set, the break total is the sum of ends minus the sum of starts |
| TimeSummary.TravelNeverAffectsFlex | src/routes/time.js:84-90 | changing an entry's travel times never changes its flex |
| TimeSummary.TravelNeedsBothBounds | src/routes/time.js:84 | travel is `end - start` when both bounds are set, and 0 when either is missing or 0 |
| TimeSummary.ZeroIsNeutral | src/routes/time.js:82 | a freshly opened all-zero day row adds nothing to what is added to it |
| TimeSummary.AddToRows | src/routes/time.js:81-95 | the row of the day gains the measures; a day without a row gets one appended, opened at zero; every other row stays as it was |
| TimeSummary.AddToRowsFlex | src/routes/time.js:91-96 | adding an entry's measures to its day's row raises the rows' total flex by exactly the entry's flex |
| TimeSummary.AddToRowsDates | src/routes/time.js:81-82 | after adding to day d, d has a row; existing rows keep their days; a new row for d is appended only when d had none; distinct days stay distinct |
| TimeSummary.Group | src/routes/time.js:78-97 | grouping never yields more rows than entries |
| TimeSummary.GroupShape | src/routes/time.js:78-97 | the rows built from any entries have distinct days, a row for every entry's day and an entry for every row's day |
| TimeSummary.GroupFlex | src/routes/time.js:90-96 | the rows' flex adds up to the flex of all entries |
| TimeSummary.GroupOrder | src/routes/time.js:78-98 | for date-ordered entries the rows come in increasing date order, the last row being the last entry's day |
| TimeSummary.GroupTotals | src/routes/time.js:78-96 | every row holds the sums of work, travel, breaks, extra and flex over exactly the entries of its day |
| TimeSummary.Summarize | src/routes/time.js:78-98 | the loop's `totalFlex` equals the sum of the rows' flex and of the entries' flex; one row per distinct day; each row is its day's totals; every entry's day has a row and every row an entry; date-ordered entries give date-ordered rows |
| TimeSummary.PeriodWindow | src/routes/time.js:52-65 | "day", "week" and "month" give a nonempty bounded window; any other period gives no date filter |
| TimeSummary.WindowContainsBase | src/routes/time.js:53-64 | the day, week and month windows are bounded; each contains the base instant, except exactly the month window of a base date in the years 0 through 99 |
| TimeSummary.TwoDigitYearMonth | src/routes/time.js:62-64 | for a base date in the years 0 through 99, the month window starts on the first of the same month of year 1900 + year, after the base instant |
| TimeSummary.DayWindowIsOneDay | src/routes/time.js:51-56 | the day window holds exactly one day: the base day when the base instant is a midnight, and the day after it otherwise |
| TimeSummary.SundayOnOrBefore | src/routes/time.js:59 | stepping back from a day by its `getDay` lands on a Sunday |
| TimeSummary.WeekWindowStartsOnSunday | src/routes/time.js:57-61 | the week window starts on the Sunday on or before the base date, at the base instant's time of day, and spans 7 days; it holds that Sunday to Saturday when the base is a midnight, and Monday to the next Sunday otherwise |
| TimeSummary.MonthWindowIsTheMonth | src/routes/time.js:62-64 | the month window runs from midnight of the first of the base month for as many days as that month has, and holds exactly that month's days, in the base year, or in 1900 + year for the years 0 through 99 |
| TimeSummary.EntriesOf | src/routes/time.js:66-70 | each stored entry of the user whose date lies in the window is selected as often as it is stored, and no other entry is |
| TimeSummary.InsertByDate | src/routes/time.js:71 | inserting into date-ordered entries keeps them date-ordered and adds exactly the one entry |
| TimeSummary.SortByDate | src/routes/time.js:71 | `orderBy: { date: "asc" }` yields a date-ordered permutation of the selected entries |
| TimeSummary.Query | src/routes/time.js:66-72 | the entries read are date-ordered and are exactly the user's entries in the window, each as often as it is stored |
| TimeSummary.SummaryNormal | src/routes/time.js:74-76 | the report's nominal time is the normal time the settings page shows, or, with no row, the 480 that page would create |
| TimeSummary.SummaryNormalSkipsFallback | src/routes/time.js:74-76 | with a stored normal time of 0, the report owes 0 minutes while the work-time resolver owes 480 when no work period covers the date |
| TimeSummary.SummaryPage | src/routes/time.js:48-100 | no user: login redirect; an Invalid Date: no page; otherwise, with period defaulting to week, the base instant to the parsed date or else the current instant, and nominal time to the settings row or 480: `totalFlex` equals the rows' flex and the flex of the user's entries in the window; rows have increasing distinct days inside the window, each day has an entry and its row holds that day's totals, and every such entry's day has a row |
| WorkTime.LatestCovering | src/utils.js:17-28 | none exactly when no period of the user covers the date (both ends inclusive); otherwise a stored covering period whose start is the latest among covering periods |
| WorkTime.WorkTimeForDate | src/utils.js:13-30 | 480 without settings; the normal time (0 read as 480) when the user id is absent or empty, or when no period covers the date; otherwise the minutes of a covering period with the latest start |
| WorkTime.NormalWorkTime | src/utils.js:15 | never 0: a stored 0 reads as 480, any other value is kept |
| WorkTime.ResultIsNormalOrCovering | src/utils.js:13-30 | the result is 480, the user's normal time, or the minutes of a period covering the date |
| WorkTime.LatestStartWins | src/utils.js:16-27 | with a settings row, a covering period that starts later than every other covering period decides the result, unless the user id is empty |
| WorkTime.OtherUsersPeriodsIgnored | src/utils.js:17-22 | adding another user's period never changes the result |
| WorkTime.OnlyCoveringPeriodsMatter | src/utils.js:18-22 | a period that does not cover the date, for this user, never changes which period is chosen |
| NumberParsing.ParseDecimalPrefix | src/routes/settings.js:28-29 | `parseInt` reads back n from the decimal text of n followed by any text that does not continue the number |
| NumberParsing.ParseDecimal | src/routes/settings.js:28-29 | `parseInt(String(n)) == n` for every integer n |
| NumberParsing.ParseInt | src/routes/settings.js:28-29 | empty text, and text starting with no white space, sign or digit (such as "undefined", "true" and "false"), parse to NaN |
| FormFields.ParseValue | src/routes/settings.js:28-29 | a missing field or a JSON boolean parses to NaN; the decimal text of n parses to n |
| FormFields.NullableInt | src/routes/flexusage.js:36 | a falsy field stores null; the decimal text of n stores n; a JSON `true` yields NaN; a stored number is the parse of a truthy field, and NaN comes only from a truthy field that does not parse |
| FormFields.TimeColumn | src/routes/absence.js:35-36 | the literal "on" for full_day stores null; otherwise a falsy time stores null, the decimal text of n stores n, and a JSON `true` is NaN; a stored number is always the parse of a truthy time, and a NaN always comes from a truthy time that does not parse |
| FormFields.IsFullDay | src/routes/absence.js:34 | only a truthy value marks a full day: text exactly when it is "on", a boolean exactly when it is `true` |
| Absences.NewAbsence | src/routes/absence.js:23-44 | missing date or type rejects; then a missing user rejects; a JSON boolean for date, type or comments rejects; a NaN time rejects; otherwise the record is created with the user's id, date, type and comments unchanged, full_day true exactly for "on" or `true`, and times null for "on", null when falsy, and otherwise the parse of a truthy time, which is n for the decimal text of n |
| Absences.FullDayTrueKeepsTimes | src/routes/absence.js:34-36 | a JSON `true` for full_day makes a full-day absence that keeps the submitted start and end times |
| Absences.KeptTime | src/routes/absence.js:35 | under a JSON `true` for full_day, the decimal text of n is stored as n |
| FlexLeave.NewFlexLeave | src/routes/flexleave.js:20-54 | no user redirects to login; a missing date rejects; a JSON boolean for date or comments rejects, and only then; otherwise the record is created with type "flex_leave", full day, no times, the user's id and the date and comments unchanged |
| FlexLeave.FlexLeaveIsFullDayAbsence | src/routes/flexleave.js:33-43 | for a signed-in user with a date, a flex-leave request has the same outcome as the absence form with type "flex_leave" and full_day "on", whatever times that form carries |
| FlexUsage.NewFlexUse | src/routes/flexusage.js:23-44 | a missing date rejects (type is not asked for); then a missing user rejects; a JSON boolean for date or comments rejects; a NaN time or amount rejects; otherwise the record keeps user, date and comments, full_day is true exactly for "on" or `true`, times follow the absence rules, and amount is null when falsy and otherwise the parse of a truthy amount, which is n for the decimal text of n |
| FlexUsage.SameCoercionAsAbsence | src/routes/flexusage.js:33-35 | a flex use and an absence built from the same fields agree on date, full day, times and comments |
| UserSettings.Show | src/routes/settings.js:8-17 | no user redirects; an existing row is shown and nothing changes; a missing row is created with 480 and 435, adding exactly one row and changing no other |
| UserSettings.Update | src/routes/settings.js:20-44 | no user redirects; a NaN field changes nothing and shows the existing row with an error; otherwise the user's row, created or replaced, holds the parsed values, no other row changes, and the saved row is shown with a success notice |
| UserSettings.UpdateStoresSubmittedNumbers | src/routes/settings.js:25-36 | submitting the decimal texts of n and m leaves the store with exactly the row (n, m) for the user |
| UserSettings.UpdateIdempotent | src/routes/settings.js:25-36 | submitting the same values twice leaves the store as submitting them once |
| UserSettings.ShowAfterUpdate | src/routes/settings.js:10-16 | after saving n and m, the settings page shows (n, m) and creates nothing |
| UserSettings.ShowIdempotent | src/routes/settings.js:10-15 | opening the settings page twice creates at most one row |

## Left out

- Routing, sessions, authentication, CSRF tokens and page rendering are left out. A signed-in user is an `Option<UserId>`. A rendered page is reduced to what it shows: the rows and total, the settings row and notice, or a rejection reason.
- Persistence is reduced to sequences and maps. The model does not cover transactions, concurrency, or which database error a failed create raises.
- `NaN` in an Int column is not modelled as the database would store it. The model assumes persistence rejects it, as described above.
- The model does not handle `Date` objects, `parseISO`, or the millisecond division `/ 60000`. Times are whole minutes, as in the application's own test data. A stored time with seconds would give fractional minutes, which the model does not represent. Neither is a midnight `Date` bound, which JavaScript counts as set.
- TimeSummary.SummaryPage: the current instant and a parsed `date` are whole minutes past midnight; seconds and milliseconds are not represented. Which strings `new Date(date)` accepts, and the day and minute it makes of them, are left to the caller. The page's response for an Invalid Date is reduced to `Failed`.
- Time zones and the `toISOString().slice(0, 10)` day key are left out. Days are ordinals and the day key is the ordinal. For a server running outside UTC, the local-time window and the UTC day key can disagree.
- Rows are ordered by first appearance, which is how `Object.entries` orders keys that are not integers. The model appends a row for a new day at the end, which matches this.
- The model does not cover the range of JavaScript numbers (exact only below 2^53) or the 32-bit range of Int columns. Integers are unbounded.
- Absences.NewAbsence: a field sent twice in a urlencoded body arrives as an array; `FormValue` has no arrays, so the model says nothing about such requests.
- FlexLeave.NewFlexLeave: a date or comments field sent twice arrives as an array, which `FormValue` does not represent.
- FlexUsage.NewFlexUse: a field sent twice arrives as an array, which `FormValue` does not represent.
- Absences.NewAbsence, FlexLeave.NewFlexLeave, FlexUsage.NewFlexUse: a date string that the store cannot read as a date is accepted by the model. Only a boolean date is refused.
- `parseInt` is modelled on strings and without a radix argument. Other JavaScript values are converted the way `String(v)` converts a missing field or a boolean. A JSON number in a request body is not a `FormValue`.
- NumberParsing.ParseDecimalPrefix: the Unicode white space `parseInt` skips is listed character by character. Only text produced by `String(n)` is proved to round-trip.
- The routes that list, show forms for, or delete absences, flex uses, entries or periods are left out. They build nothing beyond what the database stores.
- `POST /time/new` is left out. It converts the submitted times with `parseISO` and stores the entry. The model starts from stored entries, with their times already in minutes.
- Administration, GDPR export, profile and account routes are left out. So are the Elysia and Kysely stubs, translations and styling. They are thin wrappers with no computation.
- Absence-adjusted accrual, travel-dependent flex and withdrawal of flex leave from a balance have no code in the application. They are not modelled.

=== FILE: absences.dfy ===
/** Creating an absence from the absence form (`POST /absence/new`). */
module Absences {
  import opened Common
  import opened FormFields
  import opened NumberParsing

  datatype AbsenceForm = AbsenceForm(
    date: FormValue,
    kind: FormValue,       // the `type` field
    fullDay: FormValue,
    startTime: FormValue,
    endTime: FormValue,
    comments: FormValue)

  /** A stored absence; date, type and comments are kept as submitted. */
  datatype Absence = Absence(
    user: UserId,
    date: FormValue,
    kind: FormValue,
    fullDay: bool,
    startTime: Option<int>,
    endTime: Option<int>,
    comments: FormValue)

  /** The handler: date and type are required, then the user id is read (which throws
      when nobody is signed in), then the record is built and stored. The store refuses
      a JSON boolean for the date, the type or the comments, and a NaN for a time. */
  function NewAbsence(user: Option<UserId>, form: AbsenceForm): (r: Outcome<Absence>)
    ensures !r.RedirectToLogin?
    ensures !Truthy(form.date) || !Truthy(form.kind) ==> r == Rejected(MissingRequiredFields)
    ensures Truthy(form.date) && Truthy(form.kind) && user.None? ==> r == Rejected(NoSignedInUser)
    ensures r.Created? <==>
      && Truthy(form.date) && Truthy(form.kind) && user.Some?
      && form.date.Text? && form.kind.Text? && StoresAsText(form.comments, true)
      && !TimeColumn(form.fullDay, form.startTime).NotANumber?
      && !TimeColumn(form.fullDay, form.endTime).NotANumber?
    ensures r.Rejected? && r.reason == NotAString ==>
      form.date.Flag? || form.kind.Flag? || form.comments.Flag?
    ensures r.Rejected? && r.reason == NotAnInteger ==>
      TimeColumn(form.fullDay, form.startTime).NotANumber? || TimeColumn(form.fullDay, form.endTime).NotANumber?
    ensures r.Created? ==>
      && r.record.user == user.value
      && r.record.date == form.date
      && r.record.kind == form.kind
      && r.record.comments == form.comments
    ensures r.Created? ==> (r.record.fullDay <==> form.fullDay == Text("on") || form.fullDay == Flag(true))
    ensures r.Created? && form.fullDay == Text("on") ==> r.record.startTime.None? && r.record.endTime.None?
    ensures r.Created? && form.fullDay != Text("on") && !Truthy(form.startTime) ==> r.record.startTime.None?
    ensures r.Created? && form.fullDay != Text("on") && !Truthy(form.endTime) ==> r.record.endTime.None?
    ensures r.Created? && form.fullDay != Text("on") && Truthy(form.startTime) ==> r.record.startTime == ParseValue(form.startTime)
    ensures r.Created? && form.fullDay != Text("on") && Truthy(form.endTime) ==> r.record.endTime == ParseValue(form.endTime)
    ensures forall n: int {:trigger Decimal(n)} ::
      r.Created? && form.fullDay != Text("on") && form.startTime == Text(Decimal(n)) ==> r.record.startTime == Some(n)
    ensures forall n: int {:trigger Decimal(n)} ::
      r.Created? && form.fullDay != Text("on") && form.endTime == Text(Decimal(n)) ==> r.record.endTime == Some(n)
  {
    if !Truthy(form.date) || !Truthy(form.kind) then Rejected(MissingRequiredFields)
    else if user.None? then Rejected(NoSignedInUser)
    else if !form.date.Text? || !form.kind.Text? || !StoresAsText(form.comments, true) then Rejected(NotAString)
    else
      var start := TimeColumn(form.fullDay, form.startTime);
      var end := TimeColumn(form.fullDay, form.endTime);
      if start.NotANumber? || end.NotANumber? then Rejected(NotAnInteger)
      else Created(Absence(user.value, form.date, form.kind, IsFullDay(form.fullDay),
                           start.Stored(), end.Stored(), form.comments))
  }

  /** A JSON `true` for full_day gives a full-day absence that still carries the
      submitted times; only the form checkbox value "on" clears them. */
  lemma FullDayTrueKeepsTimes(user: UserId, date: string, kind: string, start: int, end: int, comments: string)
    requires date != "" && kind != ""
    ensures var r := NewAbsence(Some(user), AbsenceForm(Text(date), Text(kind), Flag(true), Text(Decimal(start)), Text(Decimal(end)), Text(comments)));
      r.Created? && r.record.fullDay && r.record.startTime == Some(start) && r.record.endTime == Some(end)
  {
    var s, e := Text(Decimal(start)), Text(Decimal(end));
    var form := AbsenceForm(Text(date), Text(kind), Flag(true), s, e, Text(comments));
    KeptTime(start);
    KeptTime(end);
    assert NewAbsence(Some(user), form)
        == Created(Absence(user, Text(date), Text(kind), true, Some(start), Some(end), Text(comments)));
  }

  /** Under a JSON `true` for full_day, the decimal text of n is stored as n. */
  lemma KeptTime(n: int)
    ensures TimeColumn(Flag(true), Text(Decimal(n))) == Number(n)
  {
    assert ParseValue(Text(Decimal(n))) == Some(n);
  }
}

=== FILE: calendar.dfy ===
/** Proleptic Gregorian calendar arithmetic on day ordinals.
    Day 0 is 1970-01-01, which was a Thursday. */
module Calendar {

  predicate IsLeapYear(y: int) {
    y % 4 == 0 && (y % 100 != 0 || y % 400 == 0)
  }

  function DaysInMonth(y: int, m: int): int
    requires 1 <= m <= 12
  {
    if m == 2 then (if IsLeapYear(y) then 29 else 28)
    else if m == 4 || m == 6 || m == 9 || m == 11 then 30
    else 31
  }

  /** Days of year y that come before month m; m == 13 gives the length of the year. */
  function DaysBeforeMonth(y: int, m: int): int
    requires 1 <= m <= 13
  {
    [0, 31, 59, 90, 120, 151, 181, 212, 243, 273, 304, 334, 365][m - 1]
      + (if m > 2 && IsLeapYear(y) then 1 else 0)
  }

  /** Leap years in [1, y) for y >= 1; floor division extends the count to every y. */
  function LeapYearsBefore(y: int): int {
    (y - 1) / 4 - (y - 1) / 100 + (y - 1) / 400
  }

  /** Ordinal of January 1st of year y. */
  function DaysBeforeYear(y: int): int {
    365 * (y - 1970) + LeapYearsBefore(y) - LeapYearsBefore(1970)
  }

  datatype CivilDate = CivilDate(year: int, month: int, day: int) {
    predicate Valid() {
      1 <= month <= 12 && 1 <= day <= DaysInMonth(year, month)
    }
  }

  /** A calendar day that exists. */
  type Date = d: CivilDate | d.Valid() witness CivilDate(1970, 1, 1)

  function DayNumber(d: Date): int {
    DaysBeforeYear(d.year) + DaysBeforeMonth(d.year, d.month) + d.day - 1
  }

  /** Day of the week of an ordinal, 0 = Sunday … 6 = Saturday, as JavaScript's `getDay`. */
  function Weekday(n: int): (w: int)
    ensures 0 <= w < 7
  {
    (n + 4) % 7
  }

  function FirstOfMonth(y: int, m: int): Date
    requires 1 <= m <= 12
  {
    CivilDate(y, m, 1)
  }

  /** First day of the month after month m of year y; December rolls into the next year,
      as `new Date(year, month + 1, 1)` does. */
  function FirstOfNextMonth(y: int, m: int): Date
    requires 1 <= m <= 12
  {
    if m == 12 then CivilDate(y + 1, 1, 1) else CivilDate(y, m + 1, 1)
  }

  /** The year `new Date(year, monthIndex, day)` builds from its first argument: it
      reads 0 through 99 as 1900 through 1999 and any other year as written. */
  function ConstructorYear(y: int): int {
    if 0 <= y <= 99 then 1900 + y else y
  }

  /** The cumulative table agrees with the month lengths. */
  lemma MonthsAreConsecutive(y: int, m: int)
    requires 1 <= m <= 12
    ensures DaysBeforeMonth(y, m + 1) == DaysBeforeMonth(y, m) + DaysInMonth(y, m)
  {
  }

  lemma DivisionStep(y: int, k: int)
    requires k > 0
    ensures y / k - (y - 1) / k == (if y % k == 0 then 1 else 0)
  {
    var q, r := (y - 1) / k, (y - 1) % k;
    assert y - 1 == k * q + r && 0 <= r < k;
    if r == k - 1 {
      DivisionUnique(y, k, q + 1, 0);
    } else {
      DivisionUnique(y, k, q, r + 1);
    }
  }

  lemma DivisionUnique(a: int, k: int, q: int, r: int)
    requires k > 0 && 0 <= r < k && a == k * q + r
    ensures a / k == q && a % k == r
  {
    var q', r' := a / k, a % k;
    assert k * (q - q') == r' - r;
    if q > q' {
      MultiplyAtLeast(k, q - q');
    } else if q < q' {
      MultiplyAtLeast(k, q' - q);
    }
  }

  lemma MultiplyAtLeast(k: int, n: int)
    requires k > 0 && n >= 1
    ensures k * n >= k
  {
  }

  /** Year y has DaysBeforeMonth(y, 13) days: January 1st of y + 1 lies that far after
      January 1st of y. */
  lemma {:induction false} YearLength(y: int)
    ensures DaysBeforeYear(y + 1) == DaysBeforeYear(y) + DaysBeforeMonth(y, 13)
  {
    DivisionStep(y, 4);
    DivisionStep(y, 100);
    DivisionStep(y, 400);
  }

  /** The month window [first of month, first of next month) holds exactly the days
      of that month. */
  lemma {:induction false} MonthSpan(y: int, m: int)
    requires 1 <= m <= 12
    ensures DayNumber(FirstOfNextMonth(y, m)) - DayNumber(FirstOfMonth(y, m)) == DaysInMonth(y, m)
    ensures forall d :: 1 <= d <= DaysInMonth(y, m) ==>
              DayNumber(FirstOfMonth(y, m)) <= DayNumber(CivilDate(y, m, d)) < DayNumber(FirstOfNextMonth(y, m))
  {
    MonthsAreConsecutive(y, m);
    if m == 12 {
      YearLength(y);
    }
  }

  /** Every year has at least 365 days, so January 1st of b lies at least 365 days per
      year after January 1st of a. */
  lemma {:induction false} YearsAscend(a: int, b: int)
    requires a <= b
    ensures DaysBeforeYear(a) + 365 * (b - a) <= DaysBeforeYear(b)
    decreases b - a
  {
    if a < b {
      YearsAscend(a, b - 1);
      YearLength(b - 1);
      assert DaysBeforeMonth(b - 1, 13) >= 365;
      assert 365 * (b - a) == 365 * (b - 1 - a) + 365;
    }
  }

  /** A day comes before January 1st of the following year. */
  lemma {:induction false} BeforeNextYear(d: Date)
    ensures DayNumber(d) < DaysBeforeYear(d.year + 1)
  {
    MonthsAreConsecutive(d.year, d.month);
    YearLength(d.year);
  }

  /** 1970-01-01 was a Thursday and 2024-01-01 a Monday. */
  lemma KnownWeekdays()
    ensures Weekday(DayNumber(CivilDate(1970, 1, 1))) == 4
    ensures DayNumber(CivilDate(2024, 1, 1)) == 19723
    ensures Weekday(DayNumber(CivilDate(2024, 1, 1))) == 1
  {
  }
}

=== FILE: common.dfy ===
/** Small shared vocabulary: optional values, user identities and the three
    ways a record-creating request can end. */
module Common {

  /** The conventional Some/None datatype, standing for a nullable value. */
  datatype Option<+T> = None | Some(value: T)

  /** The id of a signed-in user. */
  type UserId = string

  /** Why a create request stored nothing. */
  datatype Rejection =
    | MissingRequiredFields  // "Missing required fields"
    | DateRequired           // "Date is required"
    | NoSignedInUser         // `req.user.id` on an absent user throws inside the handler's try
    | NotAnInteger           // a parsed field is NaN and the Int column refuses it
    | NotAString             // a JSON boolean handed to a String or DateTime column

  /** The result of a POST that would create one record. */
  datatype Outcome<+R> =
    | RedirectToLogin
    | Rejected(reason: Rejection)
    | Created(record: R)
}

=== FILE: flex_leave.dfy ===
/** Registering a flex-leave day (`POST /absence/flex-leave`): an absence of the fixed
    type "flex_leave", always full-day and without times. */
module FlexLeave {
  import opened Common
  import opened FormFields
  import opened Absences

  datatype FlexLeaveForm = FlexLeaveForm(date: FormValue, comments: FormValue)

  const FlexLeaveType := Text("flex_leave")

  function NewFlexLeave(user: Option<UserId>, form: FlexLeaveForm): (r: Outcome<Absence>)
    ensures user.None? ==> r == RedirectToLogin
    ensures user.Some? && !Truthy(form.date) ==> r == Rejected(DateRequired)
    ensures r.Created? <==> user.Some? && Truthy(form.date) && form.date.Text? && StoresAsText(form.comments, true)
    ensures r == Rejected(NotAString) <==>
      user.Some? && Truthy(form.date) && (form.date.Flag? || form.comments.Flag?)
    ensures r.Created? ==>
      && r.record.kind == Text("flex_leave")
      && r.record.fullDay
      && r.record.startTime.None? && r.record.endTime.None?
    ensures r.Created? ==>
      && r.record.user == user.value
      && r.record.date == form.date
      && r.record.comments == form.comments
  {
    if user.None? then RedirectToLogin
    else if !Truthy(form.date) then Rejected(DateRequired)
    else if !form.date.Text? || !StoresAsText(form.comments, true) then Rejected(NotAString)
    else Created(Absence(user.value, form.date, FlexLeaveType, true, None, None, form.comments))
  }

  /** A flex-leave day is exactly the absence the absence form creates for type
      "flex_leave" with the full-day box ticked, whatever times that form carried, and
      both refuse the same dates and comments. */
  lemma FlexLeaveIsFullDayAbsence(user: UserId, form: FlexLeaveForm, startTime: FormValue, endTime: FormValue)
    requires Truthy(form.date)
    ensures NewFlexLeave(Some(user), form)
         == NewAbsence(Some(user), AbsenceForm(form.date, FlexLeaveType, Text("on"), startTime, endTime, form.comments))
  {
  }
}

=== FILE: flex_usage.dfy ===
/** Recording a use of flex time (`POST /flexusage/new`). */
module FlexUsage {
  import opened Common
  import opened FormFields
  import opened NumberParsing
  import Absences

  datatype FlexUsageForm = FlexUsageForm(
    date: FormValue,
    fullDay: FormValue,
    startTime: FormValue,
    endTime: FormValue,
    amount: FormValue,
    comments: FormValue)

  datatype FlexUse = FlexUse(
    user: UserId,
    date: FormValue,
    fullDay: bool,
    startTime: Option<int>,
    endTime: Option<int>,
    amount: Option<int>,
    comments: FormValue)

  /** The handler: only the date is required, then the user id is read, then the
      record is built and stored. */
  function NewFlexUse(user: Option<UserId>, form: FlexUsageForm): (r: Outcome<FlexUse>)
    ensures !r.RedirectToLogin?
    ensures !Truthy(form.date) ==> r == Rejected(MissingRequiredFields)
    ensures Truthy(form.date) && user.None? ==> r == Rejected(NoSignedInUser)
    ensures r.Created? <==>
      && Truthy(form.date) && user.Some?
      && form.date.Text? && StoresAsText(form.comments, true)
      && !TimeColumn(form.fullDay, form.startTime).NotANumber?
      && !TimeColumn(form.fullDay, form.endTime).NotANumber?
      && !NullableInt(form.amount).NotANumber?
    ensures r.Rejected? && r.reason == NotAString ==> form.date.Flag? || form.comments.Flag?
    ensures r.Created? ==>
      && r.record.user == user.value
      && r.record.date == form.date
      && r.record.comments == form.comments
    ensures r.Created? ==> (r.record.fullDay <==> form.fullDay == Text("on") || form.fullDay == Flag(true))
    ensures r.Created? && form.fullDay == Text("on") ==> r.record.startTime.None? && r.record.endTime.None?
    ensures r.Created? && form.fullDay != Text("on") && !Truthy(form.startTime) ==> r.record.startTime.None?
    ensures r.Created? && form.fullDay != Text("on") && !Truthy(form.endTime) ==> r.record.endTime.None?
    ensures r.Created? && form.fullDay != Text("on") && Truthy(form.startTime) ==> r.record.startTime == ParseValue(form.startTime)
    ensures r.Created? && form.fullDay != Text("on") && Truthy(form.endTime) ==> r.record.endTime == ParseValue(form.endTime)
    ensures forall n: int {:trigger Decimal(n)} ::
      r.Created? && form.fullDay != Text("on") && form.startTime == Text(Decimal(n)) ==> r.record.startTime == Some(n)
    ensures forall n: int {:trigger Decimal(n)} ::
      r.Created? && form.fullDay != Text("on") && form.endTime == Text(Decimal(n)) ==> r.record.endTime == Some(n)
    ensures r.Created? && !Truthy(form.amount) ==> r.record.amount.None?
    ensures r.Created? && Truthy(form.amount) ==> r.record.amount == ParseValue(form.amount)
    ensures forall n: int {:trigger Decimal(n)} ::
      r.Created? && form.amount == Text(Decimal(n)) ==> r.record.amount == Some(n)
  {
    if !Truthy(form.date) then Rejected(MissingRequiredFields)
    else if user.None? then Rejected(NoSignedInUser)
    else if !form.date.Text? || !StoresAsText(form.comments, true) then Rejected(NotAString)
    else
      var start := TimeColumn(form.fullDay, form.startTime);
      var end := TimeColumn(form.fullDay, form.endTime);
      var amount := NullableInt(form.amount);
      if start.NotANumber? || end.NotANumber? || amount.NotANumber? then Rejected(NotAnInteger)
      else Created(FlexUse(user.value, form.date, IsFullDay(form.fullDay),
                           start.Stored(), end.Stored(), amount.Stored(), form.comments))
  }

  /** A flex use and an absence built from the same date, full-day flag, times and
      comments agree on all of them: both handlers coerce these fields the same way. */
  lemma SameCoercionAsAbsence(user: UserId, form: FlexUsageForm, kind: FormValue)
    requires Truthy(kind)
    ensures var u := NewFlexUse(Some(user), form);
            var a := Absences.NewAbsence(Some(user), Absences.AbsenceForm(form.date, kind, form.fullDay, form.startTime, form.endTime, form.comments));
      u.Created? && a.Created? ==>
        && u.record.date == a.record.date
        && u.record.fullDay == a.record.fullDay
        && u.record.startTime == a.record.startTime
        && u.record.endTime == a.record.endTime
        && u.record.comments == a.record.comments
  {
  }
}

=== FILE: form_fields.dfy ===
/** Request-body values and the coercions the create handlers apply to them. */
module FormFields {
  import opened Common
  import opened NumberParsing

  /** One field of a request body: absent, a string (every urlencoded field), or a
      JSON boolean. */
  datatype FormValue = Missing | Text(text: string) | Flag(flag: bool)

  /** JavaScript truthiness: undefined, "" and false are falsy. */
  predicate Truthy(v: FormValue) {
    match v
    case Missing => false
    case Text(s) => s != ""
    case Flag(b) => b
  }

  /** `String(v)`, what `parseInt` reads. */
  function ToText(v: FormValue): string {
    match v
    case Missing => "undefined"
    case Text(s) => s
    case Flag(b) => if b then "true" else "false"
  }

  /** `parseInt(v)`; None stands for NaN. */
  function ParseValue(v: FormValue): (r: Option<int>)
    ensures v.Missing? || v.Flag? ==> r.None?
    ensures forall n: int {:trigger Decimal(n)} :: v == Text(Decimal(n)) ==> r == Some(n)
  {
    assert v.Missing? || v.Flag? ==> ParseInt(ToText(v)).None?;
    assert forall n: int {:trigger Decimal(n)} :: v == Text(Decimal(n)) ==> ParseInt(ToText(v)) == Some(n) by {
      forall n: int {:trigger Decimal(n)} | v == Text(Decimal(n)) {
        ParseDecimal(n);
      }
    }
    ParseInt(ToText(v))
  }

  /** `full_day === "on" || full_day === true`: only a truthy value marks a full day. */
  function IsFullDay(fullDay: FormValue): (b: bool)
    ensures b ==> Truthy(fullDay)
    ensures fullDay.Text? ==> (b <==> fullDay.text == "on")
    ensures fullDay.Flag? ==> (b <==> fullDay.flag)
  {
    fullDay == Text("on") || fullDay == Flag(true)
  }

  /** A value a String or DateTime column takes: text, or (for an optional column)
      nothing at all. The store refuses a JSON boolean there. */
  predicate StoresAsText(v: FormValue, optional: bool) {
    v.Text? || (optional && v.Missing?)
  }

  /** What a handler hands the store for a nullable Int column. */
  datatype Column = Null | Number(n: int) | NotANumber {
    /** The stored value; only a NaN has none. */
    function Stored(): Option<int>
      requires !NotANumber?
    {
      if Null? then None else Some(n)
    }
  }

  /** `v ? parseInt(v) : null`. */
  function NullableInt(v: FormValue): (c: Column)
    ensures !Truthy(v) ==> c == Null
    ensures forall n: int {:trigger Decimal(n)} :: v == Text(Decimal(n)) ==> c == Number(n)
    ensures v.Flag? && v.flag ==> c == NotANumber
    ensures c.Number? ==> Truthy(v) && ParseValue(v) == Some(c.n)
    ensures c.NotANumber? ==> Truthy(v) && ParseValue(v).None?
  {
    if !Truthy(v) then Null
    else match ParseValue(v)
      case None => NotANumber
      case Some(n) => Number(n)
  }

  /** `full_day === "on" ? null : (v ? parseInt(v) : null)`: only the literal "on" clears
      a time; a JSON `true` marks the day full but keeps the submitted times. */
  function TimeColumn(fullDay: FormValue, v: FormValue): (c: Column)
    ensures fullDay == Text("on") ==> c == Null
    ensures c.Number? ==> fullDay != Text("on") && Truthy(v) && ParseValue(v) == Some(c.n)
    ensures c.NotANumber? ==> fullDay != Text("on") && Truthy(v) && ParseValue(v).None?
    ensures fullDay != Text("on") && !Truthy(v) ==> c == Null
    ensures forall n: int {:trigger Decimal(n)} ::
      fullDay != Text("on") && v == Text(Decimal(n)) ==> c == Number(n)
    ensures fullDay != Text("on") && v == Flag(true) ==> c == NotANumber
  {
    if fullDay == Text("on") then Null else NullableInt(v)
  }
}

=== FILE: number_parsing.dfy ===
/** JavaScript's `parseInt(string)` with no radix argument, which the handlers use on
    every numeric form field, and the decimal rendering it inverts. */
module NumberParsing {
  import opened Common

  /** The white space `parseInt` skips before the number: the ASCII spaces, line
      terminators, the byte-order mark and the Unicode space separators. */
  predicate IsSpace(c: char) {
    || c == ' ' || c == '\t' || c == '\n' || c == '\r' || c == '\U{B}' || c == '\U{C}'
    || c == '\U{A0}' || c == '\U{1680}' || ('\U{2000}' <= c <= '\U{200A}')
    || c == '\U{2028}' || c == '\U{2029}' || c == '\U{202F}' || c == '\U{205F}'
    || c == '\U{3000}' || c == '\U{FEFF}'
  }

  function TrimStart(s: string): (t: string)
    ensures |t| <= |s|
    ensures |t| > 0 ==> !IsSpace(t[0])
  {
    if |s| > 0 && IsSpace(s[0]) then TrimStart(s[1..]) else s
  }

  /** The value of c read as a digit of base 36 (letters of either case); 36 when c is
      no digit at all. */
  function DigitValue(c: char): (v: int)
    ensures 0 <= v <= 36
  {
    if '0' <= c <= '9' then c as int - '0' as int
    else if 'a' <= c <= 'z' then c as int - 'a' as int + 10
    else if 'A' <= c <= 'Z' then c as int - 'A' as int + 10
    else 36
  }

  predicate IsDigit(c: char, radix: int) {
    DigitValue(c) < radix
  }

  function DigitValues(s: string): (ds: seq<int>)
    ensures |ds| == |s|
    ensures forall i :: 0 <= i < |s| ==> ds[i] == DigitValue(s[i])
  {
    if |s| == 0 then [] else [DigitValue(s[0])] + DigitValues(s[1..])
  }

  /** The values of the longest prefix of s made of radix digits. */
  function LeadingDigits(s: string, radix: int): (ds: seq<int>)
    ensures |ds| <= |s|
    ensures forall i :: 0 <= i < |ds| ==> ds[i] == DigitValue(s[i])
    ensures forall i :: 0 <= i < |ds| ==> IsDigit(s[i], radix)
    ensures |ds| < |s| ==> !IsDigit(s[|ds|], radix)
  {
    if |s| > 0 && IsDigit(s[0], radix) then
      [DigitValue(s[0])] + LeadingDigits(s[1..], radix)
    else []
  }

  /** The number a big-endian digit sequence denotes. */
  function ValueOf(ds: seq<int>, radix: int): int {
    if |ds| == 0 then 0 else ValueOf(ds[..|ds| - 1], radix) * radix + ds[|ds| - 1]
  }

  /** Splits one leading sign off: whether it was '-', and the text after it. */
  function StripSign(t: string): (r: (bool, string))
    ensures r.0 <==> |t| > 0 && t[0] == '-'
    ensures r.1 == if |t| > 0 && (t[0] == '-' || t[0] == '+') then t[1..] else t
  {
    if |t| > 0 && (t[0] == '-' || t[0] == '+') then (t[0] == '-', t[1..]) else (false, t)
  }

  /** A "0x" or "0X" prefix selects base 16; anything else is read in base 10. */
  function StripRadixPrefix(u: string): (r: (int, string))
    ensures r.0 == 16 <==> |u| >= 2 && u[0] == '0' && (u[1] == 'x' || u[1] == 'X')
    ensures r.0 == 16 ==> r.1 == u[2..]
    ensures r.0 != 16 ==> r.0 == 10 && r.1 == u
  {
    if |u| >= 2 && u[0] == '0' && (u[1] == 'x' || u[1] == 'X') then (16, u[2..]) else (10, u)
  }

  /** `parseInt(s)`: None stands for NaN. Leading white space is skipped, one sign is
      read, a "0x"/"0X" prefix switches to base 16, and the longest digit prefix is
      read; without any digit there the result is NaN. */
  function ParseInt(s: string): (r: Option<int>)
    ensures |s| == 0 ==> r.None?
    // "undefined", "true" and "false", what `String` makes of a missing field and of a
    // boolean, start with neither white space, a sign nor a digit: they read as NaN.
    ensures |s| > 0 && !IsSpace(s[0]) && s[0] != '-' && s[0] != '+' && !IsDigit(s[0], 10) ==> r.None?
  {
    assert |s| > 0 && !IsSpace(s[0]) ==> TrimStart(s) == s;
    var (negative, u) := StripSign(TrimStart(s));
    var (radix, v) := StripRadixPrefix(u);
    var ds := LeadingDigits(v, radix);
    if |ds| == 0 then None
    else Some(if negative then -ValueOf(ds, radix) else ValueOf(ds, radix))
  }

  function DigitChar(d: int): (c: char)
    requires 0 <= d < 10
    ensures IsDigit(c, 10) && DigitValue(c) == d
  {
    ('0' as int + d) as char
  }

  /** Decimal digits of n without leading zeros. */
  function DecimalDigits(n: nat): (s: string)
    ensures |s| >= 1
    ensures forall i :: 0 <= i < |s| ==> IsDigit(s[i], 10)
    ensures s[0] == '0' ==> n == 0 && |s| == 1
    decreases n
  {
    if n < 10 then [DigitChar(n)] else DecimalDigits(n / 10) + [DigitChar(n % 10)]
  }

  /** How `String(n)` writes an integer. */
  function Decimal(n: int): string {
    if n < 0 then "-" + DecimalDigits(-n) else DecimalDigits(n)
  }

  lemma {:induction false} LeadingDigitsOfConcat(a: string, b: string, radix: int)
    requires forall i :: 0 <= i < |a| ==> IsDigit(a[i], radix)
    ensures LeadingDigits(a + b, radix) == DigitValues(a) + LeadingDigits(b, radix)
  {
    if |a| > 0 {
      assert (a + b)[1..] == a[1..] + b;
      LeadingDigitsOfConcat(a[1..], b, radix);
    } else {
      assert a + b == b;
    }
  }

  lemma {:induction false} ValueOfDecimalDigits(n: nat)
    ensures ValueOf(DigitValues(DecimalDigits(n)), 10) == n
    decreases n
  {
    var s := DecimalDigits(n);
    var ds := DigitValues(s);
    if n >= 10 {
      ValueOfDecimalDigits(n / 10);
      assert ds[..|ds| - 1] == DigitValues(DecimalDigits(n / 10));
    }
  }

  /** `String(n)` starts with no white space, and its sign is split off exactly. */
  lemma DecimalSign(n: int, rest: string)
    ensures var s := Decimal(n) + rest;
      TrimStart(s) == s && StripSign(s) == (n < 0, DecimalDigits(if n < 0 then -n else n) + rest)
  {
    var s := Decimal(n) + rest;
    assert !IsSpace(s[0]);
    if n < 0 {
      assert s == "-" + (DecimalDigits(-n) + rest);
    }
  }

  lemma DecimalRadix(m: nat, rest: string)
    requires m == 0 && |rest| > 0 ==> rest[0] != 'x' && rest[0] != 'X'
    ensures StripRadixPrefix(DecimalDigits(m) + rest) == (10, DecimalDigits(m) + rest)
  {
    var u := DecimalDigits(m) + rest;
    if |u| >= 2 && u[0] == '0' {
      assert u[1] == rest[0];
    }
  }

  /** Reading back what `String(n)` wrote gives n, also when other text that does not
      start with a digit follows, as in "15 min". */
  lemma {:induction false} ParseDecimalPrefix(n: int, rest: string)
    requires |rest| == 0 || !IsDigit(rest[0], 10)
    requires n == 0 && |rest| > 0 ==> rest[0] != 'x' && rest[0] != 'X'
    ensures ParseInt(Decimal(n) + rest) == Some(n)
  {
    var m: nat := if n < 0 then -n else n;
    var digits := DecimalDigits(m);
    DecimalSign(n, rest);
    DecimalRadix(m, rest);
    LeadingDigitsOfConcat(digits, rest, 10);
    assert LeadingDigits(rest, 10) == [];
    assert LeadingDigits(digits + rest, 10) == DigitValues(digits);
    ValueOfDecimalDigits(m);
  }

  /** parseInt(String(n)) == n. */
  lemma ParseDecimal(n: int)
    ensures ParseInt(Decimal(n)) == Some(n)
  {
    ParseDecimalPrefix(n, "");
    assert Decimal(n) + "" == Decimal(n);
  }

}

=== FILE: time_summary.dfy ===
/** The `/time/summary` report: the reporting window, the per-entry work, travel,
    break, extra and flex minutes, and their grouping into one row per day with a
    running total of flex. Times are minutes since midnight; dates are day ordinals. */
module TimeSummary {
  import opened Common
  import opened Calendar
  import UserSettings
  import WorkTime

  datatype TimeEntry = TimeEntry(
    user: UserId,
    date: int,
    workStart: int,
    workEnd: int,
    travelStart: Option<int>,
    travelEnd: Option<int>,
    breakStarts: seq<int>,
    breakEnds: seq<int>,
    extra: Option<int>)

  // ---------------------------------------------------------------------------
  // One entry

  /** The `a && b` tests of the report read a time as set only when it is present and
      not 0: midnight counts as unset. */
  predicate IsSet(t: Option<int>) {
    t.Some? && t.value != 0
  }

  function WorkMinutes(e: TimeEntry): int {
    e.workEnd - e.workStart
  }

  function TravelMinutes(e: TimeEntry): int {
    if IsSet(e.travelStart) && IsSet(e.travelEnd) then e.travelEnd.value - e.travelStart.value else 0
  }

  /** What break i adds: its length when both its start and its end are set, else 0.
      A start without a matching end reads `undefined` and adds nothing. */
  function BreakPair(starts: seq<int>, ends: seq<int>, i: int): (b: int)
    requires 0 <= i < |starts|
    ensures b != 0 ==> i < |ends| && starts[i] != 0 && ends[i] != 0
    ensures i < |ends| && starts[i] != 0 && ends[i] != 0 ==> b == ends[i] - starts[i]
  {
    if i < |ends| && ends[i] != 0 && starts[i] != 0 then ends[i] - starts[i] else 0
  }

  /** The `reduce` over the first n break starts. With no break ends it is 0, and it is
      never negative when every break ends no earlier than it starts. */
  function BreakSum(starts: seq<int>, ends: seq<int>, n: nat): (r: int)
    requires n <= |starts|
    ensures |ends| == 0 ==> r == 0
    ensures (forall i :: 0 <= i < n && i < |ends| ==> starts[i] <= ends[i]) ==> r >= 0
  {
    if n == 0 then 0 else BreakSum(starts, ends, n - 1) + BreakPair(starts, ends, n - 1)
  }

  function BreakMinutes(e: TimeEntry): int {
    BreakSum(e.breakStarts, e.breakEnds, |e.breakStarts|)
  }

  /** `e.extra_time || 0`. */
  function ExtraMinutes(e: TimeEntry): int {
    if e.extra.Some? then e.extra.value else 0
  }

  datatype Totals = Totals(work: int, travel: int, breaks: int, extra: int, flex: int) {
    function Plus(other: Totals): Totals {
      Totals(work + other.work, travel + other.travel, breaks + other.breaks,
             extra + other.extra, flex + other.flex)
    }
  }

  const Zero := Totals(0, 0, 0, 0, 0)

  lemma ZeroIsNeutral(t: Totals)
    ensures Zero.Plus(t) == t && t.Plus(Zero) == t
  {
  }

  /** The quantities one entry adds to its day's row: flex is work minus breaks plus
      extra minus the nominal time, and travel plays no part in it. */
  function Measure(e: TimeEntry, normal: int): (t: Totals)
    ensures t.flex == t.work - t.breaks + t.extra - normal
    ensures t.work == e.workEnd - e.workStart
    ensures t.travel != 0 ==> IsSet(e.travelStart) && IsSet(e.travelEnd)
    ensures e.extra.Some? ==> t.extra == e.extra.value
    ensures e.extra.None? ==> t.extra == 0
    ensures |e.breakEnds| == 0 ==> t.breaks == 0
  {
    var work, breaks, extra := WorkMinutes(e), BreakMinutes(e), ExtraMinutes(e);
    Totals(work, TravelMinutes(e), breaks, extra, work - breaks + extra - normal)
  }

  function Sum(xs: seq<int>): int {
    if |xs| == 0 then 0 else Sum(xs[..|xs| - 1]) + xs[|xs| - 1]
  }

  /** An entry's flex is its worked span minus its breaks plus its extra time minus the
      nominal time, where the breaks are the matched pairs' ends minus their starts: the
      sum of the first k break ends minus the sum of the first k break starts, for k the
      shorter list's length. */
  lemma {:induction false} FlexOfEntry(e: TimeEntry, normal: int)
    requires forall i :: 0 <= i < |e.breakStarts| ==> e.breakStarts[i] != 0
    requires forall i :: 0 <= i < |e.breakEnds| ==> e.breakEnds[i] != 0
    ensures var k := if |e.breakEnds| < |e.breakStarts| then |e.breakEnds| else |e.breakStarts|;
      Measure(e, normal).breaks == Sum(e.breakEnds[..k]) - Sum(e.breakStarts[..k])
    ensures var k := if |e.breakEnds| < |e.breakStarts| then |e.breakEnds| else |e.breakStarts|;
      Measure(e, normal).flex
        == (e.workEnd - e.workStart)
         - (Sum(e.breakEnds[..k]) - Sum(e.breakStarts[..k]))
         + (if e.extra.Some? then e.extra.value else 0)
         - normal
  {
    var k := if |e.breakEnds| < |e.breakStarts| then |e.breakEnds| else |e.breakStarts|;
    UnmatchedBreaksAddNothing(e.breakStarts, e.breakEnds, |e.breakStarts|);
    BreakSumOfMatchedPairs(e.breakStarts, e.breakEnds, k);
  }

  /** Break starts beyond the last break end contribute nothing. */
  lemma {:induction false} UnmatchedBreaksAddNothing(starts: seq<int>, ends: seq<int>, n: nat)
    requires n <= |starts|
    ensures var k := if |ends| < n then |ends| else n;
      BreakSum(starts, ends, n) == BreakSum(starts, ends, k)
  {
    if n > 0 && |ends| < n {
      UnmatchedBreaksAddNothing(starts, ends, n - 1);
    }
  }

  /** Over pairs whose bounds are all set, the break total is the sum of the ends minus
      the sum of the starts. */
  lemma {:induction false} BreakSumOfMatchedPairs(starts: seq<int>, ends: seq<int>, n: nat)
    requires n <= |starts| && n <= |ends|
    requires forall i :: 0 <= i < n ==> starts[i] != 0 && ends[i] != 0
    ensures BreakSum(starts, ends, n) == Sum(ends[..n]) - Sum(starts[..n])
  {
    if n > 0 {
      BreakSumOfMatchedPairs(starts, ends, n - 1);
      assert ends[..n][..n - 1] == ends[..n - 1];
      assert starts[..n][..n - 1] == starts[..n - 1];
    }
  }

  /** Travel times never change an entry's flex. */
  lemma TravelNeverAffectsFlex(e: TimeEntry, travelStart: Option<int>, travelEnd: Option<int>, normal: int)
    ensures Measure(e.(travelStart := travelStart, travelEnd := travelEnd), normal).flex == Measure(e, normal).flex
  {
  }

  /** Travel counts only when both bounds are set. */
  lemma TravelNeedsBothBounds(e: TimeEntry, normal: int)
    ensures !IsSet(e.travelStart) || !IsSet(e.travelEnd) ==> Measure(e, normal).travel == 0
    ensures IsSet(e.travelStart) && IsSet(e.travelEnd) ==>
      Measure(e, normal).travel == e.travelEnd.value - e.travelStart.value
  {
  }

  /** 08:00–16:15 against a nominal 480 minutes: 15 minutes of flex; a 30-minute break
      takes it to -15; 30 minutes of extra time instead take it to 45. */
  lemma FlexExamples(user: UserId, day: int)
    ensures Measure(TimeEntry(user, day, 480, 975, None, None, [], [], None), 480).flex == 15
    ensures Measure(TimeEntry(user, day, 480, 975, None, None, [600], [630], None), 480).flex == -15
    ensures Measure(TimeEntry(user, day, 480, 975, None, None, [], [], Some(30)), 480).flex == 45
    ensures Measure(TimeEntry(user, day, 480, 975, Some(450), Some(1000), [600], [], None), 480).flex == 15
  {
    assert BreakSum([600], [630], 1) == BreakSum([600], [630], 0) + 30;
    assert BreakSum([600], [], 1) == BreakSum([600], [], 0) + 0;
  }

  // ---------------------------------------------------------------------------
  // Grouping by day

  datatype DayRow = DayRow(date: int, totals: Totals)

  /** Where the row of day d sits, or -1 when there is none. */
  function RowIndex(rows: seq<DayRow>, d: int): (k: int)
    ensures -1 <= k < |rows|
    ensures k >= 0 ==> rows[k].date == d
    ensures k < 0 ==> forall i :: 0 <= i < |rows| ==> rows[i].date != d
  {
    if |rows| == 0 then -1
    else if rows[|rows| - 1].date == d then |rows| - 1
    else RowIndex(rows[..|rows| - 1], d)
  }

  /** Adds t to the row of day d, opening a zero row at the end when d has none yet.
      Every other row stays as it was. */
  function AddToRows(rows: seq<DayRow>, d: int, t: Totals): (r: seq<DayRow>)
    ensures |r| == |rows| + (if RowIndex(rows, d) < 0 then 1 else 0)
    ensures forall i :: 0 <= i < |rows| && rows[i].date != d ==> r[i] == rows[i]
    ensures RowIndex(rows, d) >= 0 ==> r[RowIndex(rows, d)] == DayRow(d, rows[RowIndex(rows, d)].totals.Plus(t))
    ensures RowIndex(rows, d) < 0 ==> r[|rows|] == DayRow(d, Zero.Plus(t))
  {
    var k := RowIndex(rows, d);
    if k < 0 then rows + [DayRow(d, t)]
    else rows[k := DayRow(d, rows[k].totals.Plus(t))]
  }

  /** The sum of the measures of the entries dated d: the reference a day's row must equal. */
  function DayTotal(entries: seq<TimeEntry>, d: int, normal: int): Totals {
    if |entries| == 0 then Zero
    else
      var last := entries[|entries| - 1];
      DayTotal(entries[..|entries| - 1], d, normal).Plus(if last.date == d then Measure(last, normal) else Zero)
  }

  /** The flex of all entries together. */
  function FlexSum(entries: seq<TimeEntry>, normal: int): int {
    if |entries| == 0 then 0
    else FlexSum(entries[..|entries| - 1], normal) + Measure(entries[|entries| - 1], normal).flex
  }

  function RowsFlex(rows: seq<DayRow>): int {
    if |rows| == 0 then 0 else RowsFlex(rows[..|rows| - 1]) + rows[|rows| - 1].totals.flex
  }

  predicate DistinctDates(rows: seq<DayRow>) {
    forall i, j :: 0 <= i < j < |rows| ==> rows[i].date != rows[j].date
  }

  predicate IncreasingDates(rows: seq<DayRow>) {
    forall i, j :: 0 <= i < j < |rows| ==> rows[i].date < rows[j].date
  }

  predicate SortedByDate(entries: seq<TimeEntry>) {
    forall i, j :: 0 <= i < j < |entries| ==> entries[i].date <= entries[j].date
  }

  predicate HasEntryOn(entries: seq<TimeEntry>, d: int) {
    exists j :: 0 <= j < |entries| && entries[j].date == d
  }

  lemma {:induction false} RowsFlexOfUpdate(rows: seq<DayRow>, k: int, r: DayRow)
    requires 0 <= k < |rows|
    ensures RowsFlex(rows[k := r]) == RowsFlex(rows) - rows[k].totals.flex + r.totals.flex
  {
    var n := |rows| - 1;
    if k < n {
      assert rows[k := r][..n] == rows[..n][k := r];
      RowsFlexOfUpdate(rows[..n], k, r);
    } else {
      assert rows[k := r][..n] == rows[..n];
    }
  }

  lemma {:induction false} NoEntryOnDay(entries: seq<TimeEntry>, d: int, normal: int)
    requires forall j :: 0 <= j < |entries| ==> entries[j].date != d
    ensures DayTotal(entries, d, normal) == Zero
  {
    if |entries| > 0 {
      NoEntryOnDay(entries[..|entries| - 1], d, normal);
    }
  }

  /** Every entry's day has a row. */
  predicate EntriesHaveRows(rows: seq<DayRow>, entries: seq<TimeEntry>) {
    forall j :: 0 <= j < |entries| ==> RowIndex(rows, entries[j].date) >= 0
  }

  /** Every row's day has an entry. */
  predicate RowsHaveEntries(rows: seq<DayRow>, entries: seq<TimeEntry>) {
    forall k :: 0 <= k < |rows| ==> HasEntryOn(entries, rows[k].date)
  }

  /** Every row holds the totals of exactly the entries of its day. */
  predicate RowsHoldDayTotals(rows: seq<DayRow>, entries: seq<TimeEntry>, normal: int) {
    forall k :: 0 <= k < |rows| ==> rows[k].totals == DayTotal(entries, rows[k].date, normal)
  }

  /** For entries in date order, the rows come in date order and the last row is the
      last entry's day. */
  predicate RowsInOrder(rows: seq<DayRow>, entries: seq<TimeEntry>) {
    SortedByDate(entries) ==>
      && IncreasingDates(rows)
      && (|entries| > 0 ==> |rows| > 0 && rows[|rows| - 1].date == entries[|entries| - 1].date)
  }

  lemma AddToRowsFlex(rows: seq<DayRow>, d: int, t: Totals)
    ensures RowsFlex(AddToRows(rows, d, t)) == RowsFlex(rows) + t.flex
  {
    var k := RowIndex(rows, d);
    if k < 0 {
      assert (rows + [DayRow(d, t)])[..|rows|] == rows;
    } else {
      RowsFlexOfUpdate(rows, k, DayRow(d, rows[k].totals.Plus(t)));
    }
  }

  /** The days of the rows after adding to the row of d: the old rows keep their days,
      and a new row for d comes last exactly when d had none. */
  lemma AddToRowsDates(rows: seq<DayRow>, d: int, t: Totals)
    ensures var rows' := AddToRows(rows, d, t);
      && (RowIndex(rows, d) >= 0 ==> |rows'| == |rows|)
      && (RowIndex(rows, d) < 0 ==> rows' == rows + [DayRow(d, t)])
      && (forall i :: 0 <= i < |rows| ==> rows'[i].date == rows[i].date)
      && RowIndex(rows', d) >= 0
      && (DistinctDates(rows) ==> DistinctDates(rows'))
  {
    var rows' := AddToRows(rows, d, t);
    var k := RowIndex(rows, d);
    if k < 0 {
      assert rows'[|rows|].date == d;
    } else {
      assert rows'[k].date == d;
    }
  }

  lemma DayTotalOfAppend(entries: seq<TimeEntry>, e: TimeEntry, d: int, normal: int)
    ensures DayTotal(entries + [e], d, normal)
         == DayTotal(entries, d, normal).Plus(if e.date == d then Measure(e, normal) else Zero)
  {
    assert (entries + [e])[..|entries|] == entries;
  }

  lemma StepTotals(rows: seq<DayRow>, entries: seq<TimeEntry>, e: TimeEntry, normal: int)
    requires RowsHoldDayTotals(rows, entries, normal) && EntriesHaveRows(rows, entries)
    requires DistinctDates(rows)
    ensures RowsHoldDayTotals(AddToRows(rows, e.date, Measure(e, normal)), entries + [e], normal)
  {
    var t := Measure(e, normal);
    var rows' := AddToRows(rows, e.date, t);
    var k := RowIndex(rows, e.date);
    AddToRowsDates(rows, e.date, t);
    if k < 0 {
      NoEntryOnDay(entries, e.date, normal);
    }
    forall i | 0 <= i < |rows'|
      ensures rows'[i].totals == DayTotal(entries + [e], rows'[i].date, normal)
    {
      DayTotalOfAppend(entries, e, rows'[i].date, normal);
      if k < 0 && i == |rows| {
        assert rows'[i] == DayRow(e.date, t);
        ZeroIsNeutral(t);
      } else if i == k {
        assert rows'[i] == DayRow(e.date, rows[k].totals.Plus(t));
      } else {
        assert rows'[i] == rows[i];
        assert rows[i].date != e.date;
        ZeroIsNeutral(rows[i].totals);
      }
    }
  }

  lemma StepHasEntry(rows: seq<DayRow>, entries: seq<TimeEntry>, e: TimeEntry, t: Totals)
    requires RowsHaveEntries(rows, entries)
    ensures RowsHaveEntries(AddToRows(rows, e.date, t), entries + [e])
  {
    var s := entries + [e];
    var rows' := AddToRows(rows, e.date, t);
    AddToRowsDates(rows, e.date, t);
    forall i | 0 <= i < |rows'|
      ensures HasEntryOn(s, rows'[i].date)
    {
      if i < |rows| {
        var j :| 0 <= j < |entries| && entries[j].date == rows[i].date;
        assert s[j].date == rows'[i].date;
      } else {
        assert s[|entries|].date == rows'[i].date;
      }
    }
  }

  lemma StepCovers(rows: seq<DayRow>, entries: seq<TimeEntry>, e: TimeEntry, t: Totals)
    requires EntriesHaveRows(rows, entries)
    ensures EntriesHaveRows(AddToRows(rows, e.date, t), entries + [e])
  {
    var s := entries + [e];
    var rows' := AddToRows(rows, e.date, t);
    AddToRowsDates(rows, e.date, t);
    forall j | 0 <= j < |s|
      ensures RowIndex(rows', s[j].date) >= 0
    {
      if j < |entries| {
        var i := RowIndex(rows, entries[j].date);
        assert rows'[i].date == s[j].date;
      }
    }
  }

  lemma StepOrder(rows: seq<DayRow>, entries: seq<TimeEntry>, e: TimeEntry, t: Totals)
    requires RowsInOrder(rows, entries) && |rows| <= |entries|
    ensures RowsInOrder(AddToRows(rows, e.date, t), entries + [e])
  {
    var s := entries + [e];
    var n := |entries|;
    if SortedByDate(s) {
      assert SortedByDate(entries) by {
        assert forall j :: 0 <= j < n ==> s[j] == entries[j];
      }
      var rows' := AddToRows(rows, e.date, t);
      var k := RowIndex(rows, e.date);
      AddToRowsDates(rows, e.date, t);
      if n > 0 {
        assert s[n - 1].date <= s[n].date;
      }
      if k >= 0 {
        var last := |rows| - 1;
        assert rows[last].date <= e.date;
        assert k == last;
        assert rows' == rows[k := DayRow(e.date, rows[k].totals.Plus(t))];
        assert IncreasingDates(rows') by {
          forall i, j | 0 <= i < j < |rows'|
            ensures rows'[i].date < rows'[j].date
          {
            assert rows'[i].date == rows[i].date && rows'[j].date == rows[j].date;
          }
        }
      } else {
        assert rows' == rows + [DayRow(e.date, t)];
        if |rows| > 0 {
          assert rows[|rows| - 1].date < e.date;
        }
        assert IncreasingDates(rows') by {
          forall i, j | 0 <= i < j < |rows'|
            ensures rows'[i].date < rows'[j].date
          {
            if j == |rows| && i < |rows| - 1 {
              assert rows[i].date < rows[|rows| - 1].date;
            }
          }
        }
      }
    }
  }

  /** The rows the report builds from entries, as a function of the entries. */
  function Group(entries: seq<TimeEntry>, normal: int): (rows: seq<DayRow>)
    ensures |rows| <= |entries|
  {
    if |entries| == 0 then []
    else
      var last := entries[|entries| - 1];
      AddToRows(Group(entries[..|entries| - 1], normal), last.date, Measure(last, normal))
  }

  lemma {:induction false} GroupFlex(entries: seq<TimeEntry>, normal: int)
    ensures RowsFlex(Group(entries, normal)) == FlexSum(entries, normal)
  {
    if |entries| > 0 {
      var n := |entries| - 1;
      var init, e := entries[..n], entries[n];
      GroupFlex(init, normal);
      AddToRowsFlex(Group(init, normal), e.date, Measure(e, normal));
    }
  }

  lemma {:induction false} GroupShape(entries: seq<TimeEntry>, normal: int)
    ensures var rows := Group(entries, normal);
      && DistinctDates(rows)
      && EntriesHaveRows(rows, entries)
      && RowsHaveEntries(rows, entries)
  {
    if |entries| > 0 {
      var n := |entries| - 1;
      var init, e := entries[..n], entries[n];
      var t := Measure(e, normal);
      GroupShape(init, normal);
      assert init + [e] == entries;
      AddToRowsDates(Group(init, normal), e.date, t);
      StepCovers(Group(init, normal), init, e, t);
      StepHasEntry(Group(init, normal), init, e, t);
    }
  }

  lemma {:induction false} GroupOrder(entries: seq<TimeEntry>, normal: int)
    ensures RowsInOrder(Group(entries, normal), entries)
  {
    if |entries| > 0 {
      var n := |entries| - 1;
      var init, e := entries[..n], entries[n];
      GroupOrder(init, normal);
      assert init + [e] == entries;
      StepOrder(Group(init, normal), init, e, Measure(e, normal));
    }
  }

  lemma {:induction false} GroupTotals(entries: seq<TimeEntry>, normal: int)
    ensures RowsHoldDayTotals(Group(entries, normal), entries, normal)
  {
    if |entries| > 0 {
      var n := |entries| - 1;
      var init, e := entries[..n], entries[n];
      GroupTotals(init, normal);
      GroupShape(init, normal);
      assert init + [e] == entries;
      StepTotals(Group(init, normal), init, e, normal);
    }
  }

  /** The loop of the report: each entry is measured and added to its day's row and to
      the running total. */
  method Summarize(entries: seq<TimeEntry>, normal: int) returns (rows: seq<DayRow>, totalFlex: int)
    ensures totalFlex == RowsFlex(rows)
    ensures totalFlex == FlexSum(entries, normal)
    ensures DistinctDates(rows)
    ensures |rows| <= |entries|
    ensures forall k :: 0 <= k < |rows| ==> rows[k].totals == DayTotal(entries, rows[k].date, normal)
    ensures forall k :: 0 <= k < |rows| ==> HasEntryOn(entries, rows[k].date)
    ensures forall j :: 0 <= j < |entries| ==> RowIndex(rows, entries[j].date) >= 0
    ensures SortedByDate(entries) ==> IncreasingDates(rows)
  {
    rows, totalFlex := [], 0;
    for i := 0 to |entries|
      invariant rows == Group(entries[..i], normal)
      invariant totalFlex == FlexSum(entries[..i], normal)
    {
      var e := entries[i];
      var t := Measure(e, normal);
      assert entries[..i + 1][..i] == entries[..i];
      rows := AddToRows(rows, e.date, t);
      totalFlex := totalFlex + t.flex;
    }
    assert entries[..|entries|] == entries;
    GroupFlex(entries, normal);
    GroupShape(entries, normal);
    GroupOrder(entries, normal);
    GroupTotals(entries, normal);
  }

  // ---------------------------------------------------------------------------
  // The query

  const MinutesPerDay := 1440

  /** A window of instants, in minutes since 1970-01-01 00:00. An entry's date is the
      midnight that starts its day, so day d lies in the window when d * MinutesPerDay
      does. */
  datatype Window = Range(start: int, end: int) | Everything

  predicate InWindow(w: Window, d: int) {
    w.Everything? || w.start <= d * MinutesPerDay < w.end
  }

  /** The window for `period` around the base instant: the day `base` at `clock` minutes
      past midnight. The day and week windows keep the base instant's time of day; the
      month window runs from midnight to midnight, over the month that
      `new Date(year, month, 1)` builds, whose year reads 0 through 99 as 1900 through
      1999. Any other period leaves start and end undefined, and the query then drops
      its date filter. */
  function PeriodWindow(period: string, base: Date, clock: int): (w: Window)
    ensures w.Range? <==> period == "day" || period == "week" || period == "month"
    ensures w.Range? ==> w.start < w.end
  {
    var b := DayNumber(base);
    var now := b * MinutesPerDay + clock;
    if period == "day" then Range(now, now + MinutesPerDay)
    else if period == "week" then
      var start := now - Weekday(b) * MinutesPerDay;
      Range(start, start + 7 * MinutesPerDay)
    else if period == "month" then
      var y := ConstructorYear(base.year);
      assert DayNumber(FirstOfMonth(y, base.month)) < DayNumber(FirstOfNextMonth(y, base.month)) by {
        MonthSpan(y, base.month);
      }
      Range(DayNumber(FirstOfMonth(y, base.month)) * MinutesPerDay,
            DayNumber(FirstOfNextMonth(y, base.month)) * MinutesPerDay)
    else Everything
  }

  /** The day, week and month windows contain the base instant, except the month
      window of a base date in the years 0 through 99. */
  lemma WindowContainsBase(period: string, base: Date, clock: int)
    requires period == "day" || period == "week" || period == "month"
    requires 0 <= clock < MinutesPerDay
    ensures PeriodWindow(period, base, clock).Range?
    ensures var w := PeriodWindow(period, base, clock);
      w.start <= DayNumber(base) * MinutesPerDay + clock < w.end <==> !(period == "month" && 0 <= base.year <= 99)
  {
    if period == "month" {
      if 0 <= base.year <= 99 {
        TwoDigitYearMonth(base, clock);
      } else {
        MonthSpan(base.year, base.month);
        assert DayNumber(FirstOfMonth(base.year, base.month)) <= DayNumber(base) < DayNumber(FirstOfNextMonth(base.year, base.month));
      }
    }
  }

  /** For a base date in the years 0 through 99 the month window is the same month of
      year 1900 + year, which lies wholly after the base instant. */
  lemma TwoDigitYearMonth(base: Date, clock: int)
    requires 0 <= base.year <= 99
    requires 0 <= clock < MinutesPerDay
    ensures var w := PeriodWindow("month", base, clock);
      && w.Range?
      && w.start == DayNumber(CivilDate(1900 + base.year, base.month, 1)) * MinutesPerDay
      && DayNumber(base) * MinutesPerDay + clock < w.start
  {
    BeforeNextYear(base);
    YearsAscend(base.year + 1, 1900 + base.year);
    assert DayNumber(base) < DayNumber(CivilDate(1900 + base.year, base.month, 1));
  }

  /** The day window holds one day: the base day when the base instant is a midnight,
      and otherwise the day after it, whose midnight is the only one in the window. */
  lemma DayWindowIsOneDay(base: Date, clock: int)
    requires 0 <= clock < MinutesPerDay
    ensures var w := PeriodWindow("day", base, clock);
      forall d :: InWindow(w, d) <==> d == DayNumber(base) + (if clock == 0 then 0 else 1)
  {
    var b := DayNumber(base);
    forall d | true
      ensures InWindow(PeriodWindow("day", base, clock), d) <==> d == b + (if clock == 0 then 0 else 1)
    {
      DayOffset(d - b, clock, 1);
    }
  }

  /** For a time of day c, the midnights k days after a midnight that fall in the n days
      from c on are those of k in [0, n) when c is 0 and of k in [1, n] otherwise. */
  lemma DayOffset(k: int, c: int, n: int)
    requires 0 <= c < MinutesPerDay
    ensures c <= k * MinutesPerDay < c + n * MinutesPerDay
        <==> if c == 0 then 0 <= k < n else 1 <= k <= n
  {
  }

  /** Stepping back from any day by its weekday lands on a Sunday. */
  lemma SundayOnOrBefore(b: int)
    ensures Weekday(b - Weekday(b)) == 0
  {
    var q := (b + 4) / 7;
    assert b + 4 == 7 * q + Weekday(b);
    DivisionUnique(b - Weekday(b) + 4, 7, q, 0);
  }

  /** The week window starts on the Sunday on or before the base date, at the base
      instant's time of day, and spans seven days: it holds that Sunday and the six days
      after it when the base instant is a midnight, and otherwise the six days after
      that Sunday and the next Sunday. */
  lemma WeekWindowStartsOnSunday(base: Date, clock: int)
    requires 0 <= clock < MinutesPerDay
    ensures var w := PeriodWindow("week", base, clock);
      var b := DayNumber(base);
      var sunday := b - Weekday(b);
      && w.Range?
      && Weekday(sunday) == 0
      && sunday <= b < sunday + 7
      && w.start == sunday * MinutesPerDay + clock
      && w.end - w.start == 7 * MinutesPerDay
      && forall d :: InWindow(w, d) <==>
           if clock == 0 then sunday <= d < sunday + 7 else sunday < d <= sunday + 7
  {
    var b := DayNumber(base);
    var sunday := b - Weekday(b);
    SundayOnOrBefore(b);
    forall d | true
      ensures InWindow(PeriodWindow("week", base, clock), d) <==>
        if clock == 0 then sunday <= d < sunday + 7 else sunday < d <= sunday + 7
    {
      DayOffset(d - sunday, clock, 7);
    }
  }

  /** The month window holds exactly the days of the base date's month, in the year
      the `Date` constructor reads: the base year itself outside 0 through 99. */
  lemma MonthWindowIsTheMonth(base: Date, clock: int)
    ensures var w := PeriodWindow("month", base, clock);
      var y := if 0 <= base.year <= 99 then 1900 + base.year else base.year;
      var first := DayNumber(CivilDate(y, base.month, 1));
      && w.Range?
      && w.end - w.start == DaysInMonth(y, base.month) * MinutesPerDay
      && (forall d :: InWindow(w, d) <==> first <= d < first + DaysInMonth(y, base.month))
      && forall d :: 1 <= d <= DaysInMonth(y, base.month) ==>
           InWindow(w, DayNumber(CivilDate(y, base.month, d)))
  {
    MonthSpan(ConstructorYear(base.year), base.month);
  }

  /** The user's entries inside the window, in stored order. */
  function EntriesOf(store: seq<TimeEntry>, user: UserId, w: Window): (r: seq<TimeEntry>)
    ensures forall e :: multiset(r)[e] == if e.user == user && InWindow(w, e.date) then multiset(store)[e] else 0
    ensures forall e :: e in r <==> e in store && e.user == user && InWindow(w, e.date)
  {
    if |store| == 0 then []
    else
      var rest := EntriesOf(store[1..], user, w);
      assert store == [store[0]] + store[1..];
      assert multiset(store) == multiset{store[0]} + multiset(store[1..]);
      if store[0].user == user && InWindow(w, store[0].date) then
        assert multiset([store[0]] + rest) == multiset{store[0]} + multiset(rest);
        [store[0]] + rest
      else rest
  }

  function InsertByDate(e: TimeEntry, s: seq<TimeEntry>): (r: seq<TimeEntry>)
    requires SortedByDate(s)
    ensures SortedByDate(r)
    ensures multiset(r) == multiset(s) + multiset{e}
    ensures |r| == |s| + 1 && (r[0] == e || (|s| > 0 && r[0] == s[0]))
  {
    if |s| == 0 || e.date <= s[0].date then [e] + s
    else
      var rest := InsertByDate(e, s[1..]);
      assert s == [s[0]] + s[1..];
      var r := [s[0]] + rest;
      assert s[0].date <= rest[0].date by {
        if |s| > 1 {
          assert s[0].date <= s[1].date;
        }
      }
      ConsSorted(s[0], rest);
      r
  }

  /** An entry no later than the head of a sorted sequence can go in front of it. */
  lemma ConsSorted(e: TimeEntry, s: seq<TimeEntry>)
    requires SortedByDate(s)
    requires |s| > 0 ==> e.date <= s[0].date
    ensures SortedByDate([e] + s)
  {
    var r := [e] + s;
    forall i, j | 0 <= i < j < |r|
      ensures r[i].date <= r[j].date
    {
      if i == 0 && j > 1 {
        assert s[0].date <= s[j - 1].date;
      }
    }
  }

  /** `orderBy: { date: "asc" }`: a reordering of the rows by ascending date. */
  function SortByDate(s: seq<TimeEntry>): (r: seq<TimeEntry>)
    ensures SortedByDate(r)
    ensures multiset(r) == multiset(s)
  {
    if |s| == 0 then []
    else
      assert s == s[..|s| - 1] + [s[|s| - 1]];
      InsertByDate(s[|s| - 1], SortByDate(s[..|s| - 1]))
  }

  /** The entries the report reads: the user's entries in the window, by ascending date. */
  function Query(store: seq<TimeEntry>, user: UserId, w: Window): (r: seq<TimeEntry>)
    ensures SortedByDate(r)
    ensures forall e :: e in r <==> e in store && e.user == user && InWindow(w, e.date)
    ensures forall e :: multiset(r)[e] == if e.user == user && InWindow(w, e.date) then multiset(store)[e] else 0
  {
    var r := SortByDate(EntriesOf(store, user, w));
    assert forall e :: e in r <==> e in multiset(EntriesOf(store, user, w));
    r
  }

  /** The report's nominal time: the user's `normal_work_time` when a settings row
      exists (with no fallback for 0), else 480. Work periods play no part. It is the
      normal time the settings page shows, or, for a user without a row, the default
      that page would create. */
  function SummaryNormal(settings: UserSettings.Store, user: UserId): (normal: int)
    ensures var page := UserSettings.Show(settings, Some(user)).view;
      page.SettingsPage? && page.shown.Some? && normal == page.shown.value.normalWorkTime
  {
    if user in settings then settings[user].normalWorkTime else 480
  }

  /** A `normal_work_time` of 0 is taken at face value here, while the work-time
      resolver reads it as 480: the same user owes 0 minutes a day in the report and
      480 by the resolver. */
  lemma SummaryNormalSkipsFallback(settings: UserSettings.Store, user: UserId, date: int)
    requires user in settings && settings[user].normalWorkTime == 0 && user != ""
    ensures SummaryNormal(settings, user) == 0
    ensures WorkTime.WorkTimeForDate(date, Some(settings[user]), Some(user), []) == 480
  {
  }

  /** Rows that each stand for some entry lie in any window that holds all entries. */
  lemma RowsInsideWindow(rows: seq<DayRow>, entries: seq<TimeEntry>, w: Window)
    requires RowsHaveEntries(rows, entries)
    requires forall e :: e in entries ==> InWindow(w, e.date)
    ensures forall k :: 0 <= k < |rows| ==> InWindow(w, rows[k].date)
  {
    forall k | 0 <= k < |rows|
      ensures InWindow(w, rows[k].date)
    {
      assert HasEntryOn(entries, rows[k].date);
      var j :| 0 <= j < |entries| && entries[j].date == rows[k].date;
      assert entries[j] in entries;
    }
  }

  /** What `new Date(date)` makes of the `date` query parameter: a day and a time of day
      in minutes past midnight (0 for a date-only string such as "2024-01-15", and the
      given time for one such as "2024-01-15T13:00"), or an Invalid Date. */
  datatype BaseDate = At(day: Date, minute: int) | InvalidDate

  /** The page rendered, or `Failed` when the handler throws before rendering. */
  datatype SummaryView = LoginRedirect | Summary(rows: seq<DayRow>, totalFlex: int) | Failed

  /** `GET /time/summary`. The period defaults to "week". The base instant is the one
      parsed from `date`, or else the current instant: `today` at `clock` minutes past
      midnight. An Invalid Date makes the handler throw, at the latest when it formats
      the base date for the page. */
  method SummaryPage(store: seq<TimeEntry>, settings: UserSettings.Store, user: Option<UserId>,
                     period: Option<string>, date: Option<BaseDate>, today: Date, clock: int)
    returns (view: SummaryView)
    requires 0 <= clock < MinutesPerDay
    requires date.Some? && date.value.At? ==> 0 <= date.value.minute < MinutesPerDay
    ensures user.None? ==> view == LoginRedirect
    ensures user.Some? && date == Some(InvalidDate) ==> view == Failed
    ensures user.Some? && date != Some(InvalidDate) ==> view.Summary?
    ensures user.Some? && date != Some(InvalidDate) ==>
      var given := date.Some? && date.value.At?;
      var w := PeriodWindow(if period.Some? then period.value else "week",
                            if given then date.value.day else today,
                            if given then date.value.minute else clock);
      var entries := Query(store, user.value, w);
      var normal := SummaryNormal(settings, user.value);
      && view.totalFlex == RowsFlex(view.rows)
      && view.totalFlex == FlexSum(entries, normal)
      && DistinctDates(view.rows)
      && IncreasingDates(view.rows)
      && (forall k :: 0 <= k < |view.rows| ==>
            && InWindow(w, view.rows[k].date)
            && HasEntryOn(entries, view.rows[k].date)
            && view.rows[k].totals == DayTotal(entries, view.rows[k].date, normal))
      && (forall e :: e in store && e.user == user.value && InWindow(w, e.date) ==>
            RowIndex(view.rows, e.date) >= 0)
  {
    if user.None? {
      return LoginRedirect;
    }
    if date == Some(InvalidDate) {
      return Failed;
    }
    var given := date.Some? && date.value.At?;
    var p := if period.Some? then period.value else "week";
    var w := PeriodWindow(p, if given then date.value.day else today, if given then date.value.minute else clock);
    var entries := Query(store, user.value, w);
    var rows, totalFlex := Summarize(entries, SummaryNormal(settings, user.value));
    RowsInsideWindow(rows, entries, w);
    view := Summary(rows, totalFlex);
  }
}

=== FILE: user_settings.dfy ===
/** The per-user settings row: shown (and created with defaults when missing) by
    `GET /settings`, overwritten or created by `POST /settings`. The store is a map from
    user to row, so a user never has two rows. */
module UserSettings {
  import opened Common
  import opened FormFields
  import opened NumberParsing

  datatype Settings = Settings(normalWorkTime: int, summerWorkTime: int)

  type Store = map<UserId, Settings>

  const DefaultNormalWorkTime := 480
  const DefaultSummerWorkTime := 435

  datatype Notice = NoNotice | Saved | Failed

  datatype View = LoginRedirect | SettingsPage(shown: Option<Settings>, notice: Notice)

  /** The store after the request, and what the user is shown. */
  datatype Response = Response(store: Store, view: View)

  function Lookup(store: Store, user: UserId): Option<Settings> {
    if user in store then Some(store[user]) else None
  }

  /** `GET /settings`: get-or-create. */
  function Show(store: Store, user: Option<UserId>): (r: Response)
    ensures user.None? ==> r == Response(store, LoginRedirect)
    ensures user.Some? ==>
      && r.store.Keys == store.Keys + {user.value}
      && r.view == SettingsPage(Some(r.store[user.value]), NoNotice)
    ensures user.Some? && user.value in store ==> r.store == store
    ensures user.Some? && user.value !in store ==>
      && r.store[user.value] == Settings(480, 435)
      && |r.store| == |store| + 1
      && forall v :: v in store ==> r.store[v] == store[v]
  {
    match user
    case None => Response(store, LoginRedirect)
    case Some(u) =>
      var store' := if u in store then store
                    else store[u := Settings(DefaultNormalWorkTime, DefaultSummerWorkTime)];
      Response(store', SettingsPage(Some(store'[u]), NoNotice))
  }

  /** `POST /settings`: both fields go through `parseInt`; a NaN makes the upsert fail,
      and the page then shows whatever row the user already had. */
  function Update(store: Store, user: Option<UserId>, normal: FormValue, summer: FormValue): (r: Response)
    ensures user.None? ==> r == Response(store, LoginRedirect)
    ensures user.Some? && (ParseValue(normal).None? || ParseValue(summer).None?) ==>
      r.store == store && r.view == SettingsPage(Lookup(store, user.value), Failed)
    ensures user.Some? && ParseValue(normal).Some? && ParseValue(summer).Some? ==>
      && r.store.Keys == store.Keys + {user.value}
      && r.store[user.value] == Settings(ParseValue(normal).value, ParseValue(summer).value)
      && (forall v :: v in store && v != user.value ==> r.store[v] == store[v])
      && r.view == SettingsPage(Some(r.store[user.value]), Saved)
  {
    match user
    case None => Response(store, LoginRedirect)
    case Some(u) =>
      var n, m := ParseValue(normal), ParseValue(summer);
      if n.Some? && m.Some? then
        var store' := store[u := Settings(n.value, m.value)];
        Response(store', SettingsPage(Some(store'[u]), Saved))
      else Response(store, SettingsPage(Lookup(store, u), Failed))
  }

  /** Submitting the decimal texts of n and m stores exactly n and m for the user and
      changes no other user's row. */
  lemma UpdateStoresSubmittedNumbers(store: Store, user: UserId, n: int, m: int)
    ensures Update(store, Some(user), Text(Decimal(n)), Text(Decimal(m))).store == store[user := Settings(n, m)]
  {
    assert ParseValue(Text(Decimal(n))) == Some(n);
    assert ParseValue(Text(Decimal(m))) == Some(m);
  }

  /** Submitting the same values twice leaves the store as submitting them once. */
  lemma UpdateIdempotent(store: Store, user: Option<UserId>, normal: FormValue, summer: FormValue)
    ensures var once := Update(store, user, normal, summer).store;
      Update(once, user, normal, summer).store == once
  {
  }

  /** After a successful update, opening the settings page shows the submitted values
      and creates nothing. */
  lemma ShowAfterUpdate(store: Store, user: UserId, n: int, m: int)
    ensures var saved := Update(store, Some(user), Text(Decimal(n)), Text(Decimal(m))).store;
      Show(saved, Some(user)) == Response(saved, SettingsPage(Some(Settings(n, m)), NoNotice))
  {
    UpdateStoresSubmittedNumbers(store, user, n, m);
  }

  /** Opening the settings page twice creates at most one row. */
  lemma ShowIdempotent(store: Store, user: Option<UserId>)
    ensures var once := Show(store, user).store;
      Show(once, user).store == once
  {
  }
}

=== FILE: work_time.dfy ===
/** `getWorkTimeForDate`: the nominal minutes of work owed on a day, from the user's
    settings and work-period overrides. The database query becomes a filter over the
    sequence of stored periods. */
module WorkTime {
  import opened Common
  import opened UserSettings

  /** An override of the nominal work time for the days start..end, both included. */
  datatype WorkPeriod = WorkPeriod(user: UserId, start: int, end: int, minutes: int)

  const DefaultWorkTime := 480

  predicate Covers(p: WorkPeriod, user: UserId, date: int) {
    p.user == user && p.start <= date <= p.end
  }

  /** The first row of the query "periods of user covering date, latest start first".
      The database leaves the order of equal starts open; this picks the earliest stored. */
  function LatestCovering(periods: seq<WorkPeriod>, user: UserId, date: int): (r: Option<WorkPeriod>)
    ensures r.None? <==> forall q :: q in periods ==> !Covers(q, user, date)
    ensures r.Some? ==>
      && r.value in periods
      && Covers(r.value, user, date)
      && forall q :: q in periods && Covers(q, user, date) ==> q.start <= r.value.start
  {
    if |periods| == 0 then None
    else
      var rest := LatestCovering(periods[1..], user, date);
      assert forall q :: q in periods ==> q == periods[0] || q in periods[1..];
      if Covers(periods[0], user, date) && (rest.None? || rest.value.start <= periods[0].start)
      then Some(periods[0])
      else rest
  }

  /** `settings.normal_work_time || 480`: a zero setting falls back to the default. */
  function NormalWorkTime(s: Settings): (m: int)
    ensures m != 0
    ensures s.normalWorkTime != 0 ==> m == s.normalWorkTime
    ensures s.normalWorkTime == 0 ==> m == 480
  {
    if s.normalWorkTime == 0 then DefaultWorkTime else s.normalWorkTime
  }

  /** `!userId`: an absent id and the empty string are both falsy. */
  predicate HasId(user: Option<UserId>) {
    user.Some? && user.value != ""
  }

  function WorkTimeForDate(date: int, settings: Option<Settings>, user: Option<UserId>, periods: seq<WorkPeriod>): (m: int)
    ensures settings.None? ==> m == 480
    ensures settings.Some? && settings.value.normalWorkTime == 0 && (!HasId(user) || forall q :: q in periods ==> !Covers(q, user.value, date)) ==> m == 480
    ensures settings.Some? && !HasId(user) ==> m == NormalWorkTime(settings.value)
    ensures settings.Some? && HasId(user) && (forall q :: q in periods ==> !Covers(q, user.value, date)) ==>
      m == NormalWorkTime(settings.value)
    ensures settings.Some? && HasId(user) && (exists q :: q in periods && Covers(q, user.value, date)) ==>
      exists p :: p in periods && Covers(p, user.value, date) && p.minutes == m &&
        forall q :: q in periods && Covers(q, user.value, date) ==> q.start <= p.start
  {
    match settings
    case None => DefaultWorkTime
    case Some(s) =>
      if !HasId(user) then NormalWorkTime(s)
      else
        match LatestCovering(periods, user.value, date)
        case Some(p) => p.minutes
        case None => NormalWorkTime(s)
  }

  /** The result is the default, the user's normal time, or the minutes of a period
      that covers the date. */
  lemma ResultIsNormalOrCovering(date: int, settings: Option<Settings>, user: Option<UserId>, periods: seq<WorkPeriod>)
    ensures var m := WorkTimeForDate(date, settings, user, periods);
      || m == DefaultWorkTime
      || (settings.Some? && m == settings.value.normalWorkTime)
      || (user.Some? && exists p :: p in periods && Covers(p, user.value, date) && p.minutes == m)
  {
  }

  /** When one covering period starts later than every other covering period, its
      minutes are the result, unless the user id is empty: the empty string is falsy,
      and then the periods are never consulted. */
  lemma LatestStartWins(date: int, s: Settings, user: UserId, periods: seq<WorkPeriod>, p: WorkPeriod)
    requires p in periods && Covers(p, user, date)
    requires forall q :: q in periods && Covers(q, user, date) && q != p ==> q.start < p.start
    ensures WorkTimeForDate(date, Some(s), Some(user), periods) == if user == "" then NormalWorkTime(s) else p.minutes
  {
    var r := LatestCovering(periods, user, date);
    assert r.Some? && r.value.start >= p.start;
  }

  /** The user's own periods are the only ones consulted. */
  lemma OtherUsersPeriodsIgnored(date: int, s: Settings, user: UserId, periods: seq<WorkPeriod>, other: WorkPeriod)
    requires other.user != user
    ensures WorkTimeForDate(date, Some(s), Some(user), periods + [other])
         == WorkTimeForDate(date, Some(s), Some(user), periods)
  {
    OnlyCoveringPeriodsMatter(periods, other, user, date);
  }

  lemma {:induction false} OnlyCoveringPeriodsMatter(periods: seq<WorkPeriod>, extra: WorkPeriod, user: UserId, date: int)
    requires !Covers(extra, user, date)
    ensures LatestCovering(periods + [extra], user, date) == LatestCovering(periods, user, date)
  {
    if |periods| == 0 {
      assert LatestCovering([extra][1..], user, date) == None;
    } else {
      assert (periods + [extra])[1..] == periods[1..] + [extra];
      OnlyCoveringPeriodsMatter(periods[1..], extra, user, date);
    }
  }
}
